=== FILE: README.md ===
# Enigmatick web client: display helpers

A Dafny model of the client-side helper layer of the Enigmatick web client. This layer turns
ActivityPub objects into text for display. It covers:

- the `DisplayNote` render entity and its timestamp fallbacks;
- WebFinger handles (`@user@host`) derived from actor ids;
- note and conversation ids extracted from object URLs;
- same-origin tests between two URLs;
- the `max`/`min` pagination cursor of a collection page;
- media URLs rewritten through the local `/api/cache` proxy;
- custom-emoji substitution;
- the "time since" label;
- the sibling comparator on `created_at`;
- the HTML rendering of image and video attachments.

Modules:

- `Wrappers`: `Option` and `Result`.
- `Js`: the parts of JavaScript value semantics the helpers depend on:
  - truthiness of optional strings;
  - `String(x)` of `null` and `undefined`;
  - `String.prototype.replaceAll` with a string pattern;
  - the decimal rendering of integers.
- `ActivityPub`: the record shapes, cut down to the fields the helpers read.
- `Identity`: `getWebFingerFromId`, `extractUuid`, `domainMatch`, `extractMaxMin`. Each regular expression is written out as character
  classes and explicit splits of the string. The unanchored ones (`extractUuid`, `domainMatch`) are searched for at the leftmost
  position where they match, as `String.prototype.match` does.
- `Content`: `cachedContent` and `insertEmojis`. `insertEmojis` is a method whose loop follows the source's `forEach`, proved
  against the fold `ApplyEmojis`.
- `TimeAgo`: `timeSince`.
- `DisplayNotes`: the `DisplayNote` class (constructor) and `compare`.
- `Attachments`: `attachmentsDisplay`. It is a method whose loop appends one fragment per attachment, proved against `Rendered`.

Foreign pieces are parameters:

- The wasm URL-safe base64 encoder is `Option<string -> string>`. `None` means the module is not loaded.
- The clock is an argument. `Date.now()` is an integer of milliseconds, and the constructor gets the two `new Date().toISOString()`
  readings as two strings.
- `Date.parse` is `parse: string -> Option<int>`. `None` stands for NaN, so an unparseable value is neither before nor after anything.
- `new URL(url)` together with `searchParams` is `parseUrl: string -> Option<seq<(string, string)>>`. It yields the decoded query
  pairs in order. `None` stands for the thrown `TypeError`, which `ExtractMaxMin` reports as `Failure(InvalidUrl)`.

Behaviour of the code that the model keeps:

- `new URL` throws on an invalid URL, so `ExtractMaxMin` returns `Failure(InvalidUrl)`.
- `getWebFingerFromId` falls back to `String(actor.url)`, which is `"undefined"` when the url is absent.
- An unparseable `created_at` ties with everything, so `compare` orders only parseable timestamps consistently.
  `UnparseableBreaksTies` shows that ties are not transitive, and `CompareTransitive` shows the order is sound when every
  timestamp parses.
- `timeSince` of NaN (an unparseable date) is `"NaNs"`: every `interval > 1` test is false.

## Model

| member | source | states |
|---|---|---|
| `DisplayNotes.DisplayNote.constructor` | src/common.ts:49-68 | `note` and `actor` are stored unchanged; `published` and `created_at` follow their fallback chains, each with its own clock reading; `replies` is the given map or an empty one |
| `DisplayNotes.EffectivePublished` | src/common.ts:53-59 | a truthy `note.published` is taken as is; otherwise the result is a truthy timestamp or the clock value, so it is never empty when the clock string is not |
| `DisplayNotes.PublishedFallbackChain` | src/common.ts:53-59 | `published` is the note's own timestamp if truthy, else the ephemeral timestamp if truthy, else the clock; empty strings count as absent |
| `DisplayNotes.EffectiveCreatedAt` | src/common.ts:61-65 | `created_at` is the ephemeral timestamp when it is truthy and the clock value otherwise; never empty when the clock string is not |
| `DisplayNotes.CreatedAtIgnoresPublished` | src/common.ts:61-65 | the federated `published` timestamp plays no part in `created_at` |
| `DisplayNotes.UnpublishedNoteTimestampsAgree` | src/common.ts:53-65 | a note without a truthy `published` but with a truthy ephemeral timestamp gets that timestamp as both `published` and `created_at`, whatever the clocks read |
| `DisplayNotes.Compare` | src/common.ts:356-364 | the result is -1, 0 or 1; -1 exactly when both timestamps parse and `a` is earlier, 1 exactly when both parse and `a` is later; 0 whenever either does not parse |
| `DisplayNotes.CompareAntisymmetric` | src/common.ts:356-364 | `compare(a, b) == -compare(b, a)` and `compare(a, a) == 0` |
| `DisplayNotes.CompareTransitive` | src/common.ts:356-364 | over parseable timestamps, "not after" is transitive |
| `DisplayNotes.UnparseableBreaksTies` | src/common.ts:357-362 | one unparseable timestamp ties with both an earlier and a later note, so ties are not transitive |
| `Identity.GetWebFingerFromId` | src/common.ts:290-302 | an actor with a truthy id that matches the WebFinger pattern gives `"@" + preferredUsername + "@" + host` for the captured host; every other actor gives `String(actor.url)` |
| `Identity.WebFingerHost` | src/common.ts:291-296 | a match of the anchored WebFinger pattern yields a capture `host` with `id == "https://" + host + "/" + path`, a host run and a path run |
| `Identity.WebFingerHostComplete` | src/common.ts:291-296 | every id of the form `https://host/path` (host and path from their character classes) matches, with `host` as the capture |
| `Identity.WebFingerOfStandardId` | src/common.ts:290-302 | such an id gives `"@" + preferredUsername + "@" + host` |
| `Identity.WebFingerFallsBackToUrl` | src/common.ts:293-301 | with no id, or an id not of that form, the result is `String(actor.url)`, which is "undefined" when the url is absent |
| `Identity.FirstMatchFrom` | src/common.ts:384 | an unanchored match is the one at the leftmost position where the pattern matches; there is none exactly when no position matches |
| `Identity.OriginPrefix` | src/common.ts:383 | a match of `https://` + dotted host + `/` splits the text into that host and the rest |
| `Identity.OriginPrefixComplete` | src/common.ts:383 | every `https://host/...` with a dotted host matches that prefix with that host |
| `Identity.UuidAt` | src/common.ts:382-383 | a match of the id pattern at the start of a text captures a non-empty `[a-zA-Z0-9-]` run, and the text starts with `https://` |
| `Identity.UuidAtComplete` | src/common.ts:382-383 | `https://host/notes/<id>` or `https://host/conversation/<id>` with a dotted host yields the maximal id run |
| `Identity.UuidAtSound` | src/common.ts:382-383 | whatever the match yields, the text has that shape around it |
| `Identity.ExtractUuid` | src/common.ts:381-391 | a non-null result is a non-empty `[a-zA-Z0-9-]` run |
| `Identity.ExtractUuidLeftmost` | src/common.ts:384-390 | the result is the capture at the leftmost matching position; `null` exactly when no position matches |
| `Identity.ExtractUuidOfNoteUrl` | src/common.ts:381-391 | a note or conversation URL of this shape gives its trailing id |
| `Identity.ExtractUuidExample` | src/common.ts:381-391 | `https://a.io/notes/0a-1` gives `0a-1` |
| `Identity.OriginAt` | src/common.ts:394-395 | the captured origin is `https://` followed by a dotted host |
| `Identity.DomainOf` | src/common.ts:394-396 | the origin found by the unanchored search is `https://` followed by a dotted host |
| `Identity.DomainMatch` | src/common.ts:393-399 | true only when both sites carry an origin |
| `Identity.DomainMatchSymmetric` | src/common.ts:393-399 | the test is symmetric; a site matches itself exactly when it carries an origin |
| `Identity.DomainMatchTransitive` | src/common.ts:393-399 | matching is transitive |
| `Identity.DomainOfStandardUrl` | src/common.ts:394-395 | `https://host/path` with a dotted host has origin `https://host` |
| `Identity.DomainMatchStandardUrls` | src/common.ts:393-399 | two such URLs match exactly when their hosts are equal, whatever their paths |
| `Identity.SearchParam` | src/common.ts:368-369 | the value of the first pair with the key, or `null` exactly when no pair has it |
| `Identity.FirstPairDetermines` | src/common.ts:368-369 | the first pair with a key decides the lookup |
| `Identity.ExtractMaxMin` | src/common.ts:366-378 | an error exactly when the URL does not parse; a cursor's value is non-empty and is what the query holds for its key |
| `Identity.MaxCursorWins` | src/common.ts:371-372 | a non-empty first `max` value gives `{max, value}`, whatever `min` holds |
| `Identity.MinCursorOtherwise` | src/common.ts:373-374 | without a non-empty `max`, a non-empty first `min` value gives `{min, value}` |
| `Identity.NoCursorOtherwise` | src/common.ts:375-376 | with neither non-empty, the result is `{null, null}` |
| `Content.CachedContent` | src/common.ts:406-420 | without an encoder the URL comes back unchanged; with one, the result is `/api/cache?url=` followed by the encoded URL |
| `Content.CachedContentInjective` | src/common.ts:412-416 | with an injective encoder, distinct media URLs get distinct proxy paths |
| `Content.EmojiImage` | src/common.ts:314-317 | the replacement is an `<img class="emoji" src="` element whose `src` is `/api/cache?url=` plus the encoded icon URL, closed by `"/>` |
| `Content.ApplyEmojis` | src/common.ts:309-322 | when no tag is of type 'Emoji' with an icon, the text comes back unchanged |
| `Content.InsertEmojis` | src/common.ts:304-325 | for a profile or a note: unchanged text when there is no encoder or its `tag` list is absent; otherwise its tags applied in list order |
| `Content.NoShortcodeLeavesText` | src/common.ts:309-322 | when no 'Emoji' tag with an icon has its name in the text, the text comes back unchanged |
| `Content.InsertEmojisIdempotentWithoutShortcodes` | src/common.ts:309-322 | on such text, applying the substitution twice equals applying it once |
| `Content.OnlyCustomEmojisMatter` | src/common.ts:311-312 | dropping every tag that is not of type 'Emoji' with an icon leaves the result unchanged |
| `Content.EmptyTextStaysEmpty` | src/common.ts:313 | empty text stays empty |
| `Content.ShortcodeBecomesImage` | src/common.ts:314-317 | text that is exactly a shortcode becomes `<img class="emoji" src="` + proxied icon URL + `"/>` |
| `Content.RepeatedShortcodeBecomesTwoImages` | src/common.ts:309-322 | a shortcode written twice in a row becomes two images, not one |
| `Js.ReplaceAllAbsent` | src/common.ts:314 | `replaceAll` with a non-empty pattern that does not occur leaves the text unchanged |
| `Js.ReplaceAllAtFirstOccurrence` | src/common.ts:314 | every occurrence is replaced: the text before the first occurrence of a non-empty pattern is kept, that occurrence becomes the replacement, and the replacement goes on after it |
| `Js.ReplaceAll` | src/common.ts:314 | an occurrence at the start is replaced, so the result starts with the replacement (also for the empty pattern); text shorter than a non-empty pattern is unchanged |
| `Js.ReplaceAllBySelf` | src/common.ts:314 | a property of the `replaceAll` builtin model, not of the emoji code: replacing any pattern by itself leaves the text unchanged |
| `Js.ReplaceAllEmptyPatternLength` | src/common.ts:314 | an empty pattern inserts the replacement at all `n + 1` positions, `n` counting characters (not UTF-16 code units) |
| `Js.ReplaceAllWhole` | src/common.ts:314 | text equal to the pattern becomes the replacement |
| `Js.IntToString` | src/common.ts:335 | the rendering is an optional minus sign followed by decimal digits, with the sign exactly for negative numbers |
| `Js.IntToStringRoundTrip` | src/common.ts:335 | the decimal rendering of an integer reads back as the same integer |
| `TimeAgo.ElapsedSeconds` | src/common.ts:330 | whole seconds rounded down: `1000 * s <= now - date < 1000 * (s + 1)` |
| `TimeAgo.AgeOf` | src/common.ts:332-353 | plain seconds exactly when the seconds do not exceed 60, and then the count is the seconds; otherwise a count between 1 and the number of whole minutes |
| `TimeAgo.TimeSince` | src/common.ts:327-354 | a NaN date gives "NaNs"; otherwise the count of the first exceeded unit (or the seconds), rendered in decimal, followed by the unit suffix |
| `TimeAgo.AgeOfIsFirstUnit` | src/common.ts:332-353 | the chain of tests equals picking the first of yr, mo, d, h, m whose size the seconds strictly exceed, else seconds |
| `TimeAgo.FirstUnitChoice` | src/common.ts:332-353 | the chosen unit is the first exceeded; the count is `floor(s / size)`, at least 1, with `size * count <= s < size * (count + 1)`; plain seconds only when no unit is exceeded |
| `TimeAgo.AgeOfChoosesFirstExceededUnit` | src/common.ts:332-353 | the same promise for the source's five units |
| `TimeAgo.TimeSinceReadsBack` | src/common.ts:335-353 | the label ends in the unit suffix, and the digits before it read back as the count |
| `TimeAgo.StrictBoundaries` | src/common.ts:334-353 | exactly 60 seconds is "60s" and 61 is "1m"; exactly one year is "12mo" |
| `Attachments.AttachmentsDisplay` | src/routes/timeline/components/common.ts:5-18 | '' without an attachment list; otherwise the fragments of all attachments concatenated in order |
| `Attachments.Fragment` | src/routes/timeline/components/common.ts:9-13 | an image document gives the sized `<img>` element, a video document the `<video>` element with one source; the fragment is non-empty exactly for these |
| `Attachments.MediaTypeIs` | src/routes/timeline/components/common.ts:9-11 | the test holds exactly when the media type is `kind + "/" + sub` with `sub` non-empty and free of line terminators |
| `Attachments.ImageHtml` | src/routes/timeline/components/common.ts:10 | a `<div><img` element: `src` holds `String(x.url)`, then `width` holds `${x.width}` and `height` holds `${x.height}`, then `"/></div>`; the length is the sum of these pieces |
| `Attachments.VideoHtml` | src/routes/timeline/components/common.ts:12 | a `<div><video` element: `width` holds `${x.width}` and `height` holds `${x.height}`, then `controls`, then exactly one `<source src="${x.url}" type="${x.mediaType}">` followed by `</video></div>` |
| `Attachments.ImageIsNoVideo` | src/routes/timeline/components/common.ts:10-12 | no image element equals a video element, so each fragment's kind can be read from its text |
| `Attachments.Rendered` | src/routes/timeline/components/common.ts:8-14 | the concatenated fragments are empty exactly when no attachment is an image or video document |
| `Attachments.RenderedAppend` | src/routes/timeline/components/common.ts:8-16 | rendering a concatenated list gives the concatenated renderings |
| `Attachments.RenderedLength` | src/routes/timeline/components/common.ts:8-16 | the output length is the sum of the fragment lengths |
| `Attachments.OthersContributeNothing` | src/routes/timeline/components/common.ts:9-13 | dropping everything but image and video documents leaves the output unchanged |
| `Attachments.AbsentMediaTypeRendersNothing` | src/routes/timeline/components/common.ts:9-11 | a `null` or absent media type is stringified to "null" or "undefined" and renders nothing |
| `Attachments.BareImageTypeRendersNothing` | src/routes/timeline/components/common.ts:9 | `image/` with nothing after the slash renders nothing |

## Left out

- `sleep` (src/common.ts:286-288): timer and Promise plumbing.
- The interface declarations (src/common.ts:71-284) appear only as record shapes holding the fields the helpers read. Discriminants
  (`type` of tags and attachments) are plain strings.
- `cachedContent`'s `buffer` argument is not modelled: the code never reads it.
- The internals of the wasm base64 encoder, of `Date.parse` and of the WHATWG URL parser: foreign library calls, given as
  parameters. So is the clock.
- `Js.ReplaceAll`: the `$$`, `$&`, `` $` `` and `$'` patterns that `replaceAll` expands in a replacement string are not
  modelled (a string pattern has no capture groups, so `$1` stays literal). The replacements built here embed the encoder's
  URL-safe base64 output, which contains no `$`.
- `Js.ReplaceAll`: strings are sequences of Unicode scalar values, while JavaScript's `replaceAll` works on UTF-16 code units.
  An empty pattern therefore splices the replacement between characters here, where JavaScript also splices between the two
  halves of a surrogate pair (`"\u{1F600}".replaceAll("", "X")` is `"X\uD83DX\uDE00X"` there and `"X\u{1F600}X"` here). A
  pattern that is a lone surrogate cannot be written, so its match against half of such a character is not modelled. This
  reaches `insertEmojis` through an `Emoji` tag with an empty `name` applied to text holding a character outside the Basic
  Multilingual Plane.
- `Js.ReplaceAllEmptyPatternLength`: `|s|` counts characters, not UTF-16 code units; text holding characters outside the Basic
  Multilingual Plane gets more copies of the replacement in JavaScript than the stated `|s| + 1`.
- `Js.IntToString`: JavaScript renders numbers of 1e21 and above in exponent form, and it renders fractions. Neither is modelled.
  Widths, heights and times are integers here.
- `TimeAgo.TimeSince`: a date is integral milliseconds or NaN (`None`, rendered "NaNs"). Fractional timestamps and infinities
  are not modelled.
- `DisplayNotes.DisplayNote.constructor`: `replies` is held as a map value. Sharing of the caller's `Map` object (aliasing) is not
  modelled.
- Sorting with `compare` is not part of these files: only the comparator is modelled.
- Visibility classification, decryption dispatch, reply-tree insertion, reply counting, profile-URL-to-handle conversion and tag
  stripping do not appear in the modelled files. They are not part of this model.
- The dev server proxy, the build configuration, the user create/authenticate forwarders and the Svelte stores are I/O or
  configuration with no logic to state.

=== FILE: activitypub.dfy ===
/**
 * Record shapes of the federated objects, cut down to the fields the
 * display helpers read. Optional TypeScript fields (`x?: T`, `T | null`)
 * become `Option`, or `Nullable` where `null` and `undefined` print
 * differently. Discriminants stay strings because they come from remote
 * servers and are compared as strings.
 */
module ActivityPub {
  import opened Wrappers
  import opened Js

  /** `Image`: only the address is read. */
  datatype Image = Image(url: string)

  /** `Tag`: `kind` is the `type` field ('Mention', 'Emoji', 'Hashtag', ...). */
  datatype Tag = Tag(kind: string, name: string, icon: Option<Image>)

  /** `Attachment`: `kind` is the `type` field ('Document', 'PropertyValue', ...). */
  datatype Attachment = Attachment(
    kind: string,
    mediaType: Nullable<string>,
    url: Nullable<string>,
    width: Nullable<int>,
    height: Nullable<int>)

  /** The fields of `UserProfile` and `UserProfileTerse` the helpers read. */
  datatype Actor = Actor(
    id: Option<string>,
    url: Option<string>,
    preferredUsername: string,
    tag: Option<seq<Tag>>)

  /** The fields of `Note` the helpers read. */
  datatype Note = Note(
    published: Option<string>,
    ephemeralTimestamp: Option<string>,
    tag: Option<seq<Tag>>,
    attachment: Option<seq<Attachment>>)

  /** The `profile` argument of `insertEmojis`: a profile or a note. */
  datatype Tagged = Profile(actor: Actor) | Post(note: Note)

  /** `profile.tag` of either kind. */
  function Tags(profile: Tagged): Option<seq<Tag>> {
    match profile
    case Profile(actor) => actor.tag
    case Post(note) => note.tag
  }
}

=== FILE: attachments.dfy ===
/**
 * `attachmentsDisplay(note)` of src/routes/timeline/components/common.ts:
 * the HTML for a note's image and video documents.
 */
module Attachments {
  import opened Js
  import opened ActivityPub

  /** The characters `.` does not match in a JavaScript regular expression. */
  predicate IsLineTerminator(c: char) {
    c == '\n' || c == '\r' || c == '\U{2028}' || c == '\U{2029}'
  }

  /** What `.+$` accepts: at least one character, none a line terminator. */
  predicate Subtype(sub: string) {
    |sub| > 0 && forall i :: 0 <= i < |sub| ==> !IsLineTerminator(sub[i])
  }

  /** `/^(?:kind)\/.+$/.test(mediaType)`: `kind/` followed by at least one
      character, none of them a line terminator. */
  function MediaTypeIs(kind: string, mediaType: string): (r: bool)
    ensures r <==> exists sub :: Subtype(sub) && mediaType == kind + "/" + sub
  {
    var n := |kind| + 1;
    if StartsWith(mediaType, kind + "/") && |mediaType| > n then
      assert mediaType == kind + "/" + mediaType[n..];
      forall i :: n <= i < |mediaType| ==> !IsLineTerminator(mediaType[i])
    else false
  }

  predicate IsImage(x: Attachment) {
    x.kind == "Document" && MediaTypeIs("image", NullableString(x.mediaType))
  }

  predicate IsVideo(x: Attachment) {
    x.kind == "Document" && MediaTypeIs("video", NullableString(x.mediaType))
  }

  const ImageOpen: string := "<div><img src=\""
  const WidthAttr: string := "\" width=\""
  const HeightAttr: string := "\" height=\""
  const ImageEnd: string := "\"/>"
  const VideoOpen: string := "<div><video width=\""
  const Controls: string := "\" controls>"
  const VideoEnd: string := "</video>"
  const Close: string := "</div>"

  /** Where each of six consecutive pieces sits in their concatenation. */
  lemma Pieces(a: string, b: string, c: string, d: string, e: string, f: string)
    ensures var r := a + b + c + d + e + f;
      && |r| == |a| + |b| + |c| + |d| + |e| + |f|
      && StartsWith(r, a)
      && OccursAt(r, b, |a|)
      && OccursAt(r, c, |a| + |b|)
      && OccursAt(r, d, |a| + |b| + |c|)
      && r[|a| + |b| + |c| + |d|..] == e + f
  {
    var r := a + b + c + d + e + f;
    var i := |a| + |b|;
    assert r[..|a|] == a;
    assert r[|a|..i] == b;
    assert r[i..i + |c|] == c;
    assert r[i + |c|..i + |c| + |d|] == d;
    assert r[i + |c| + |d|..] == e + f;
  }

  /** An `<img>` element in a `<div>`: `src` holds `String(x.url)`, then the
      `width` and `height` attributes hold `${x.width}` and `${x.height}`. */
  function ImageHtml(x: Attachment): (r: string)
    ensures StartsWith(r, ImageOpen) && OccursAt(r, NullableString(x.url), |ImageOpen|)
    ensures var i := |ImageOpen| + |NullableString(x.url)|;
      && OccursAt(r, WidthAttr + NullableNumber(x.width), i)
      && OccursAt(r, HeightAttr + NullableNumber(x.height), i + |WidthAttr + NullableNumber(x.width)|)
    ensures |r| == |ImageOpen| + |NullableString(x.url)| + |WidthAttr + NullableNumber(x.width)|
      + |HeightAttr + NullableNumber(x.height)| + |ImageEnd + Close|
    ensures r[|r| - |ImageEnd + Close|..] == ImageEnd + Close
  {
    var url := NullableString(x.url);
    var width := WidthAttr + NullableNumber(x.width);
    var height := HeightAttr + NullableNumber(x.height);
    Pieces(ImageOpen, url, width, height, ImageEnd, Close);
    ImageOpen + url + width + height + ImageEnd + Close
  }

  /** `<source src="${x.url}" type="${x.mediaType}">`. */
  function SourceHtml(x: Attachment): string {
    "<source src=\"" + NullableString(x.url) + "\" type=\"" + NullableString(x.mediaType) + "\">"
  }

  /** A `<video>` element in a `<div>`: `width` and `height` hold `${x.width}`
      and `${x.height}`, and after `controls` comes one `<source>` element. */
  function VideoHtml(x: Attachment): (r: string)
    ensures StartsWith(r, VideoOpen) && OccursAt(r, NullableNumber(x.width), |VideoOpen|)
    ensures var i := |VideoOpen| + |NullableNumber(x.width)|;
      && OccursAt(r, HeightAttr + NullableNumber(x.height), i)
      && OccursAt(r, Controls, i + |HeightAttr + NullableNumber(x.height)|)
      && r[i + |HeightAttr + NullableNumber(x.height)| + |Controls|..] == SourceHtml(x) + VideoEnd + Close
  {
    var width := NullableNumber(x.width);
    var height := HeightAttr + NullableNumber(x.height);
    Pieces(VideoOpen, width, height, Controls, SourceHtml(x), VideoEnd + Close);
    VideoOpen + width + height + Controls + SourceHtml(x) + (VideoEnd + Close)
  }

  /** No image element is ever a video element, so the kind of each fragment
      can be read back from its text. */
  lemma ImageIsNoVideo(x: Attachment, y: Attachment)
    ensures ImageHtml(x) != VideoHtml(y)
  {
    assert ImageHtml(x)[6] == ImageOpen[6] == 'i';
    assert VideoHtml(y)[6] == VideoOpen[6] == 'v';
  }

  /** What one attachment adds: an image element, a video element, or nothing. */
  function Fragment(x: Attachment): (r: string)
    ensures IsImage(x) ==> r == ImageHtml(x)
    ensures !IsImage(x) && IsVideo(x) ==> r == VideoHtml(x)
    ensures r != "" <==> IsImage(x) || IsVideo(x)
  {
    if IsImage(x) then ImageHtml(x)
    else if IsVideo(x) then VideoHtml(x)
    else ""
  }

  /** The strings `f` gives for the elements of `xs`, concatenated in list order. */
  function ConcatMap<T>(f: T -> string, xs: seq<T>): string {
    if xs == [] then "" else f(xs[0]) + ConcatMap(f, xs[1..])
  }

  lemma {:induction false} ConcatMapAppend<T>(f: T -> string, xs: seq<T>, ys: seq<T>)
    ensures ConcatMap(f, xs + ys) == ConcatMap(f, xs) + ConcatMap(f, ys)
  {
    if xs == [] {
      assert xs + ys == ys;
    } else {
      assert (xs + ys)[1..] == xs[1..] + ys;
      ConcatMapAppend(f, xs[1..], ys);
    }
  }

  lemma {:induction false} ConcatMapEmptyIff<T>(f: T -> string, xs: seq<T>)
    ensures ConcatMap(f, xs) == "" <==> forall i :: 0 <= i < |xs| ==> f(xs[i]) == ""
  {
    if xs != [] {
      ConcatMapEmptyIff(f, xs[1..]);
      assert forall i :: 1 <= i < |xs| ==> xs[i] == xs[1..][i - 1];
    }
  }

  /** The fragments of a list, concatenated in list order; empty exactly
      when no attachment is an image or video document. */
  function Rendered(xs: seq<Attachment>): (r: string)
    ensures r == "" <==> forall i :: 0 <= i < |xs| ==> !IsImage(xs[i]) && !IsVideo(xs[i])
  {
    ConcatMapEmptyIff(Fragment, xs);
    ConcatMap(Fragment, xs)
  }

  lemma RenderedAppend(xs: seq<Attachment>, ys: seq<Attachment>)
    ensures Rendered(xs + ys) == Rendered(xs) + Rendered(ys)
  {
    ConcatMapAppend(Fragment, xs, ys);
  }

  lemma ConcatMapSnoc<T>(f: T -> string, xs: seq<T>, i: nat)
    requires i < |xs|
    ensures ConcatMap(f, xs[..i + 1]) == ConcatMap(f, xs[..i]) + f(xs[i])
  {
    ConcatMapAppend(f, xs[..i], [xs[i]]);
    assert xs[..i + 1] == xs[..i] + [xs[i]];
    assert ConcatMap(f, [xs[i]]) == f(xs[i]) + ConcatMap(f, []);
  }

  lemma RenderedSnoc(xs: seq<Attachment>, i: nat)
    requires i < |xs|
    ensures Rendered(xs[..i + 1]) == Rendered(xs[..i]) + Fragment(xs[i])
  {
    ConcatMapSnoc(Fragment, xs, i);
  }

  /** `attachmentsDisplay(note)`: '' when the note has no attachment list,
      else every fragment in order. */
  method AttachmentsDisplay(note: Note) returns (attachments: string)
    ensures note.attachment.None? ==> attachments == ""
    ensures note.attachment.Some? ==> attachments == Rendered(note.attachment.value)
  {
    attachments := "";
    if note.attachment.Some? && |note.attachment.value| > 0 {
      var xs := note.attachment.value;
      var i := 0;
      while i < |xs|
        invariant 0 <= i <= |xs|
        invariant attachments == Rendered(xs[..i])
      {
        var x := xs[i];
        if IsImage(x) {
          attachments := attachments + ImageHtml(x);
        } else if IsVideo(x) {
          attachments := attachments + VideoHtml(x);
        }
        RenderedSnoc(xs, i);
        i := i + 1;
      }
      assert xs[..|xs|] == xs;
    }
  }

  /** Image and video documents are the only attachments that render. */
  predicate Renders(x: Attachment) {
    IsImage(x) || IsVideo(x)
  }

  function RenderedOnly(xs: seq<Attachment>): (r: seq<Attachment>)
    ensures forall i :: 0 <= i < |r| ==> Renders(r[i])
  {
    if xs == [] then []
    else if Renders(xs[0]) then [xs[0]] + RenderedOnly(xs[1..])
    else RenderedOnly(xs[1..])
  }

  /** Every other attachment contributes nothing: dropping them changes nothing. */
  lemma {:induction false} OthersContributeNothing(xs: seq<Attachment>)
    ensures Rendered(xs) == Rendered(RenderedOnly(xs))
  {
    if xs != [] {
      OthersContributeNothing(xs[1..]);
      if Renders(xs[0]) {
        assert ([xs[0]] + RenderedOnly(xs[1..]))[1..] == RenderedOnly(xs[1..]);
      }
    }
  }

  /** Sum of the lengths `f` gives for the elements of `xs`. */
  function SumLengths<T>(f: T -> string, xs: seq<T>): nat {
    if xs == [] then 0 else |f(xs[0])| + SumLengths(f, xs[1..])
  }

  lemma {:induction false} ConcatMapLength<T>(f: T -> string, xs: seq<T>)
    ensures |ConcatMap(f, xs)| == SumLengths(f, xs)
  {
    if xs != [] {
      ConcatMapLength(f, xs[1..]);
    }
  }

  /** The output length is the sum of the fragment lengths. */
  lemma RenderedLength(xs: seq<Attachment>)
    ensures |Rendered(xs)| == SumLengths(Fragment, xs)
  {
    ConcatMapLength(Fragment, xs);
  }

  /** A `null` or absent media type prints as "null" or "undefined" and
      never renders. */
  lemma AbsentMediaTypeRendersNothing(x: Attachment)
    requires x.mediaType.Null? || x.mediaType.Undefined?
    ensures Fragment(x) == ""
  {
    assert "undefined"[..6][0] == 'u';
  }

  /** `image/` alone, with nothing after the slash, does not render. */
  lemma BareImageTypeRendersNothing(x: Attachment)
    requires x.mediaType == Present("image/")
    ensures Fragment(x) == ""
  {
    assert "image/"[..6][0] == 'i';
  }
}

=== FILE: content.dfy ===
/**
 * Media-URL rewriting through the local cache proxy and custom-emoji
 * substitution (`cachedContent`, `insertEmojis` of src/common.ts).
 */
module Content {
  import opened Wrappers
  import opened Js
  import opened ActivityPub

  /** The URL-safe base64 encoder of the wasm module, as an opaque function. */
  type UrlEncoder = string -> string

  const CachePrefix: string := "/api/cache?url="

  /** `cachedContent(wasm, buffer, url)`: a same-origin proxy path carrying the
      encoded URL when the encoder is loaded, the URL itself otherwise. */
  function CachedContent(wasm: Option<UrlEncoder>, url: string): (r: string)
    ensures wasm.None? ==> r == url
    ensures wasm.Some? ==> StartsWith(r, CachePrefix) && r[|CachePrefix|..] == wasm.value(url)
  {
    match wasm
    case None => url
    case Some(encode) => CachePrefix + encode(url)
  }

  /** With an injective encoder, distinct media URLs get distinct proxy paths. */
  lemma CachedContentInjective(encode: UrlEncoder, url1: string, url2: string)
    requires forall a, b :: encode(a) == encode(b) ==> a == b
    requires CachedContent(Some(encode), url1) == CachedContent(Some(encode), url2)
    ensures url1 == url2
  {
    assert encode(url1) == CachedContent(Some(encode), url1)[|CachePrefix|..];
  }

  const EmojiOpen: string := "<img class=\"emoji\" src=\""

  /** The inline image that replaces a shortcode: an `<img>` element whose
      `src` attribute is the proxied icon URL. */
  function EmojiImage(encode: UrlEncoder, icon: Image): (r: string)
    ensures StartsWith(r, EmojiOpen)
    ensures OccursAt(r, CachePrefix + encode(icon.url), |EmojiOpen|)
    ensures r[|r| - 3..] == "\"/>"
  {
    var src := CachedContent(Some(encode), icon.url);
    assert src == CachePrefix + encode(icon.url);
    EmojiOpen + src + "\"/>"
  }

  /** A tag that changes the text: of type 'Emoji' and carrying an icon. */
  predicate IsCustomEmoji(tag: Tag) {
    tag.kind == "Emoji" && tag.icon.Some?
  }

  /** One pass of the `forEach` body: a qualifying tag replaces every
      occurrence of its name, provided the text is not empty. */
  function ApplyEmoji(encode: UrlEncoder, text: string, tag: Tag): string {
    if IsCustomEmoji(tag) && text != "" then ReplaceAll(text, tag.name, EmojiImage(encode, tag.icon.value))
    else text
  }

  /** The tags applied one after the other, in list order. */
  function ApplyEmojis(encode: UrlEncoder, text: string, tags: seq<Tag>): (r: string)
    ensures (forall i :: 0 <= i < |tags| ==> !IsCustomEmoji(tags[i])) ==> r == text
    decreases |tags|
  {
    if tags == [] then text
    else ApplyEmojis(encode, ApplyEmoji(encode, text, tags[0]), tags[1..])
  }

  /** `insertEmojis(wasm, text, profile)` for a profile or a note: unchanged
      text without an encoder or a tag list. */
  method InsertEmojis(wasm: Option<UrlEncoder>, text: string, profile: Tagged) returns (result: string)
    ensures wasm.None? || Tags(profile).None? ==> result == text
    ensures wasm.Some? && Tags(profile).Some? ==> result == ApplyEmojis(wasm.value, text, Tags(profile).value)
  {
    result := text;
    var tags := Tags(profile);
    if wasm.Some? && tags.Some? {
      var encode, ts := wasm.value, tags.value;
      var i := 0;
      while i < |ts|
        invariant 0 <= i <= |ts|
        invariant ApplyEmojis(encode, result, ts[i..]) == ApplyEmojis(encode, text, ts)
      {
        var tag := ts[i];
        if tag.kind == "Emoji" {
          if tag.icon.Some? {
            if result != "" {
              result := ReplaceAll(result, tag.name, EmojiImage(encode, tag.icon.value));
            }
          }
        }
        assert ts[i..][1..] == ts[i + 1..];
        i := i + 1;
      }
    }
  }

  /** When no qualifying tag's name occurs in the text, the text comes back unchanged. */
  lemma {:induction false} NoShortcodeLeavesText(encode: UrlEncoder, text: string, tags: seq<Tag>)
    requires forall i :: 0 <= i < |tags| && IsCustomEmoji(tags[i]) ==> !Occurs(text, tags[i].name)
    ensures ApplyEmojis(encode, text, tags) == text
    decreases |tags|
  {
    if tags != [] {
      var tag := tags[0];
      if IsCustomEmoji(tag) && text != "" {
        assert !Occurs(text, tag.name);
        assert tag.name != [] by {
          assert OccursAt(text, [], 0);
        }
        ReplaceAllAbsent(text, tag.name, EmojiImage(encode, tag.icon.value));
      }
      assert forall i :: 1 <= i < |tags| ==> tags[1..][i - 1] == tags[i];
      NoShortcodeLeavesText(encode, text, tags[1..]);
    }
  }

  /** Hence substitution is idempotent on text without a matching shortcode. */
  lemma InsertEmojisIdempotentWithoutShortcodes(encode: UrlEncoder, text: string, tags: seq<Tag>)
    requires forall i :: 0 <= i < |tags| && IsCustomEmoji(tags[i]) ==> !Occurs(text, tags[i].name)
    ensures ApplyEmojis(encode, ApplyEmojis(encode, text, tags), tags) == ApplyEmojis(encode, text, tags)
  {
    NoShortcodeLeavesText(encode, text, tags);
  }

  /** The qualifying tags of a list, in order. */
  function CustomEmojis(tags: seq<Tag>): (r: seq<Tag>)
    ensures forall i :: 0 <= i < |r| ==> IsCustomEmoji(r[i])
  {
    if tags == [] then []
    else if IsCustomEmoji(tags[0]) then [tags[0]] + CustomEmojis(tags[1..])
    else CustomEmojis(tags[1..])
  }

  /** Only 'Emoji' tags with an icon change the text: dropping every other
      tag gives the same result. */
  lemma {:induction false} OnlyCustomEmojisMatter(encode: UrlEncoder, text: string, tags: seq<Tag>)
    ensures ApplyEmojis(encode, text, tags) == ApplyEmojis(encode, text, CustomEmojis(tags))
    decreases |tags|
  {
    if tags != [] {
      if IsCustomEmoji(tags[0]) {
        var next := ApplyEmoji(encode, text, tags[0]);
        OnlyCustomEmojisMatter(encode, next, tags[1..]);
        assert ([tags[0]] + CustomEmojis(tags[1..]))[1..] == CustomEmojis(tags[1..]);
      } else {
        OnlyCustomEmojisMatter(encode, text, tags[1..]);
      }
    }
  }

  /** Empty text stays empty, whatever the tags. */
  lemma {:induction false} EmptyTextStaysEmpty(encode: UrlEncoder, tags: seq<Tag>)
    ensures ApplyEmojis(encode, "", tags) == ""
    decreases |tags|
  {
    if tags != [] {
      EmptyTextStaysEmpty(encode, tags[1..]);
    }
  }

  /** A text that is exactly a shortcode becomes that emoji's image. */
  lemma ShortcodeBecomesImage(encode: UrlEncoder, name: string, icon: Image)
    requires name != ""
    ensures ApplyEmojis(encode, name, [Tag("Emoji", name, Some(icon))]) == EmojiImage(encode, icon)
  {
    ReplaceAllWhole(name, EmojiImage(encode, icon));
    assert [Tag("Emoji", name, Some(icon))][1..] == [];
  }

  /** A shortcode written twice in a row becomes two images: every
      occurrence is replaced. */
  lemma RepeatedShortcodeBecomesTwoImages(encode: UrlEncoder, name: string, icon: Image)
    requires name != ""
    ensures ApplyEmojis(encode, name + name, [Tag("Emoji", name, Some(icon))])
      == EmojiImage(encode, icon) + EmojiImage(encode, icon)
  {
    var img := EmojiImage(encode, icon);
    var tag := Tag("Emoji", name, Some(icon));
    ApplySingle(encode, name + name, tag);
    assert ApplyEmoji(encode, name + name, tag) == ReplaceAll(name + name, name, img);
    ReplaceAllAtFirstOccurrence([], name, name, img);
    assert [] + name + name == name + name;
    ReplaceAllWhole(name, img);
  }

  lemma ApplySingle(encode: UrlEncoder, text: string, tag: Tag)
    ensures ApplyEmojis(encode, text, [tag]) == ApplyEmoji(encode, text, tag)
  {
    assert [tag][1..] == [];
  }
}

=== FILE: display_note.dfy ===
/**
 * The `DisplayNote` render entity of src/common.ts and `compare`, the
 * ordering of sibling notes by their `created_at` timestamp.
 */
module DisplayNotes {
  import opened Wrappers
  import opened Js
  import opened ActivityPub

  /** `published`: the note's own timestamp if truthy, else its ephemeral
      timestamp if truthy, else the clock reading `now`. */
  function EffectivePublished(note: Note, now: string): (r: string)
    ensures Truthy(note.published) ==> r == note.published.value
    ensures r == now || Truthy(Some(r))
    ensures now != "" ==> r != ""
  {
    if Truthy(note.published) then note.published.value
    else if Truthy(note.ephemeralTimestamp) then note.ephemeralTimestamp.value
    else now
  }

  /** `created_at`: the ephemeral timestamp if truthy, else the clock reading `now`. */
  function EffectiveCreatedAt(note: Note, now: string): (r: string)
    ensures Truthy(note.ephemeralTimestamp) ==> r == note.ephemeralTimestamp.value
    ensures !Truthy(note.ephemeralTimestamp) ==> r == now
    ensures r == now || Truthy(Some(r))
    ensures now != "" ==> r != ""
  {
    if Truthy(note.ephemeralTimestamp) then note.ephemeralTimestamp.value else now
  }

  /** The federated `published` timestamp plays no part in `created_at`. */
  lemma CreatedAtIgnoresPublished(note: Note, published: Option<string>, now: string)
    ensures EffectiveCreatedAt(note.(published := published), now) == EffectiveCreatedAt(note, now)
  {
  }

  /** The fallback chain in full: the federated timestamp wins, then the
      ephemeral one, then the clock; an empty string counts as absent. */
  lemma PublishedFallbackChain(note: Note, now: string)
    ensures Truthy(note.published) ==> EffectivePublished(note, now) == note.published.value
    ensures !Truthy(note.published) && Truthy(note.ephemeralTimestamp) ==>
      EffectivePublished(note, now) == note.ephemeralTimestamp.value
    ensures !Truthy(note.published) && !Truthy(note.ephemeralTimestamp) ==> EffectivePublished(note, now) == now
    ensures note.published == Some("") && note.ephemeralTimestamp == Some("") ==> EffectivePublished(note, now) == now
  {
  }

  /** A note not yet federated (no truthy `published`) but carrying an
      ephemeral timestamp gets that timestamp as both `published` and
      `created_at`, whatever the clock reads. */
  lemma UnpublishedNoteTimestampsAgree(note: Note, publishedNow: string, createdNow: string)
    requires !Truthy(note.published) && Truthy(note.ephemeralTimestamp)
    ensures EffectivePublished(note, publishedNow) == EffectiveCreatedAt(note, createdNow) == note.ephemeralTimestamp.value
  {
  }

  class DisplayNote {
    var note: Note
    var actor: Actor
    var published: string
    /** The source's `created_at`. */
    var createdAt: string
    var replies: map<string, DisplayNote>

    /** `new DisplayNote(profile, note, replies)`. The two clock readings
        of the source (`new Date()` for `published`, then again for
        `created_at`) are `publishedNow` and `createdNow`. */
    constructor (profile: Actor, note: Note, replies: Option<map<string, DisplayNote>>,
                 publishedNow: string, createdNow: string)
      ensures this.note == note && this.actor == profile
      ensures this.published == EffectivePublished(note, publishedNow)
      ensures this.createdAt == EffectiveCreatedAt(note, createdNow)
      ensures this.replies == (if replies.Some? then replies.value else map[])
    {
      this.note := note;
      this.actor := profile;
      if Truthy(note.published) {
        this.published := note.published.value;
      } else if Truthy(note.ephemeralTimestamp) {
        this.published := note.ephemeralTimestamp.value;
      } else {
        this.published := publishedNow;
      }
      if Truthy(note.ephemeralTimestamp) {
        this.createdAt := note.ephemeralTimestamp.value;
      } else {
        this.createdAt := createdNow;
      }
      this.replies := if replies.Some? then replies.value else map[];
    }
  }

  /** `Date.parse(a) < Date.parse(b)`; an unparseable timestamp (NaN) is
      neither before nor after anything. */
  predicate Before(parse: string -> Option<int>, a: string, b: string) {
    parse(a).Some? && parse(b).Some? && parse(a).value < parse(b).value
  }

  /** `compare(a, b)`: -1, 1 or 0 as `a` was created before, after or
      neither before nor after `b`. */
  function Compare(parse: string -> Option<int>, a: DisplayNote, b: DisplayNote): (r: int)
    reads a, b
    ensures r == -1 || r == 0 || r == 1
    ensures r == -1 <==> Before(parse, a.createdAt, b.createdAt)
    ensures r == 1 <==> Before(parse, b.createdAt, a.createdAt)
    ensures parse(a.createdAt).None? || parse(b.createdAt).None? ==> r == 0
  {
    if Before(parse, a.createdAt, b.createdAt) then -1
    else if Before(parse, b.createdAt, a.createdAt) then 1
    else 0
  }

  /** The comparator is antisymmetric and a note compares equal to itself. */
  lemma CompareAntisymmetric(parse: string -> Option<int>, a: DisplayNote, b: DisplayNote)
    ensures Compare(parse, a, b) == -Compare(parse, b, a)
    ensures Compare(parse, a, a) == 0
  {
  }

  /** Among notes whose timestamps all parse, "not after" is transitive. */
  lemma CompareTransitive(parse: string -> Option<int>, a: DisplayNote, b: DisplayNote, c: DisplayNote)
    requires parse(a.createdAt).Some? && parse(b.createdAt).Some? && parse(c.createdAt).Some?
    requires Compare(parse, a, b) <= 0 && Compare(parse, b, c) <= 0
    ensures Compare(parse, a, c) <= 0
  {
  }

  /** An unparseable timestamp ties with everything, so "ties" is not
      transitive once one appears: the comparator is a strict weak order only
      over parseable timestamps. */
  lemma UnparseableBreaksTies(parse: string -> Option<int>, a: DisplayNote, b: DisplayNote, c: DisplayNote)
    requires parse(a.createdAt) == Some(1) && parse(b.createdAt).None? && parse(c.createdAt) == Some(2)
    ensures Compare(parse, a, b) == 0 && Compare(parse, b, c) == 0 && Compare(parse, a, c) == -1
  {
  }
}

=== FILE: identity.dfy ===
/**
 * Identity and URL helpers of src/common.ts: WebFinger handles from actor
 * ids, note/conversation ids from object URLs, same-origin tests and the
 * `max`/`min` pagination cursor. The regular expressions are written out as
 * character classes and explicit splits of the string; an unanchored
 * expression is searched for at the leftmost position where it matches.
 */
module Identity {
  import opened Wrappers
  import opened Js
  import opened ActivityPub

  const Scheme: string := "https://"

  predicate IsAlnum(c: char) {
    'a' <= c <= 'z' || 'A' <= c <= 'Z' || '0' <= c <= '9'
  }

  /** `[a-zA-Z0-9.-]` */
  predicate IsHostChar(c: char) {
    IsAlnum(c) || c == '.' || c == '-'
  }

  /** `[A-Za-z0-9/\-._]` */
  predicate IsPathChar(c: char) {
    IsAlnum(c) || c == '/' || c == '-' || c == '.' || c == '_'
  }

  /** `[a-zA-Z0-9-]` */
  predicate IsUuidChar(c: char) {
    IsAlnum(c) || c == '-'
  }

  /** `[a-zA-Z0-9.-]+` */
  predicate HostRun(s: string) {
    |s| > 0 && forall i :: 0 <= i < |s| ==> IsHostChar(s[i])
  }

  /** `[A-Za-z0-9/\-._]+` */
  predicate PathRun(s: string) {
    |s| > 0 && forall i :: 0 <= i < |s| ==> IsPathChar(s[i])
  }

  /** `[a-zA-Z0-9-]+` */
  predicate UuidRun(s: string) {
    |s| > 0 && forall i :: 0 <= i < |s| ==> IsUuidChar(s[i])
  }

  /** `(?:[a-zA-Z0-9.-]+)(?:\.[a-zA-Z0-9.-]+)+`: a host run holding a dot
      that is neither its first nor its last character. */
  predicate DottedHost(h: string) {
    HostRun(h) && exists k :: 0 < k < |h| - 1 && h[k] == '.'
  }

  predicate SlashFree(s: string) {
    forall i :: 0 <= i < |s| ==> s[i] != '/'
  }

  /** Index of the first '/' in `s`, or `|s|` when there is none. */
  function FirstSlash(s: string): (k: nat)
    ensures k <= |s|
    ensures k < |s| ==> s[k] == '/'
    ensures SlashFree(s[..k])
  {
    if s == [] || s[0] == '/' then 0
    else
      var k := 1 + FirstSlash(s[1..]);
      assert s[..k] == [s[0]] + s[1..][..k - 1];
      k
  }

  lemma {:induction false} FirstSlashIs(s: string, m: nat)
    requires m < |s| && s[m] == '/' && SlashFree(s[..m])
    ensures FirstSlash(s) == m
  {
    if m > 0 {
      assert s[0] == s[..m][0];
      assert s[1..][..m - 1] == s[..m][1..];
      FirstSlashIs(s[1..], m - 1);
    }
  }

  lemma FirstSlashAfter(a: string, b: string)
    requires SlashFree(a)
    ensures FirstSlash(a + "/" + b) == |a|
  {
    var s := a + "/" + b;
    assert s[..|a|] == a;
    FirstSlashIs(s, |a|);
  }

  // ----- getWebFingerFromId -----

  /** `^https:\/\/([a-zA-Z0-9\-.]+?)\/[A-Za-z0-9/\-._]+$` matches `id`,
      capturing `host`. */
  predicate WebFingerShape(id: string, host: string, path: string) {
    HostRun(host) && PathRun(path) && id == Scheme + host + "/" + path
  }

  /** The capture of the WebFinger pattern; the host cannot hold a '/', so
      it ends at the first '/' after the scheme. */
  function WebFingerHost(id: string): (r: Option<string>)
    ensures r.Some? ==> |Scheme| + |r.value| + 1 <= |id|
    ensures r.Some? ==> WebFingerShape(id, r.value, id[|Scheme| + |r.value| + 1..])
  {
    if !StartsWith(id, Scheme) then None
    else
      var rest := id[|Scheme|..];
      var k := FirstSlash(rest);
      if k < |rest| && HostRun(rest[..k]) && PathRun(rest[k + 1..]) then
        assert rest == rest[..k] + "/" + rest[k + 1..];
        Some(rest[..k])
      else None
  }

  lemma WebFingerHostComplete(host: string, path: string)
    requires HostRun(host) && PathRun(path)
    ensures WebFingerHost(Scheme + host + "/" + path) == Some(host)
  {
    var id := Scheme + host + "/" + path;
    assert StartsWith(id, Scheme);
    var rest := id[|Scheme|..];
    assert rest == host + "/" + path;
    FirstSlashAfter(host, path);
    assert rest[..|host|] == host;
    assert rest[|host| + 1..] == path;
  }

  /** The handle `@user@host` of an actor whose id has the standard shape,
      otherwise `String(actor.url)`. */
  function GetWebFingerFromId(actor: Actor): (r: string)
    ensures Truthy(actor.id) && WebFingerHost(actor.id.value).Some? ==>
      r == "@" + actor.preferredUsername + "@" + WebFingerHost(actor.id.value).value
    ensures !(Truthy(actor.id) && WebFingerHost(actor.id.value).Some?) ==> r == OptionalString(actor.url)
  {
    if Truthy(actor.id) then
      match WebFingerHost(actor.id.value)
      case Some(host) => "@" + actor.preferredUsername + "@" + host
      case None => OptionalString(actor.url)
    else OptionalString(actor.url)
  }

  /** An id `https://host/path` yields `@preferredUsername@host`. */
  lemma WebFingerOfStandardId(actor: Actor, host: string, path: string)
    requires HostRun(host) && PathRun(path)
    requires actor.id == Some(Scheme + host + "/" + path)
    ensures GetWebFingerFromId(actor) == "@" + actor.preferredUsername + "@" + host
  {
    WebFingerHostComplete(host, path);
  }

  /** Without an id of that shape the result is `String(actor.url)`,
      which is "undefined" when the profile has no url. */
  lemma WebFingerFallsBackToUrl(actor: Actor)
    requires actor.id.None? || forall host, path :: !WebFingerShape(actor.id.value, host, path)
    ensures GetWebFingerFromId(actor) == OptionalString(actor.url)
    ensures actor.url.None? ==> GetWebFingerFromId(actor) == "undefined"
  {
  }

  // ----- Leftmost search for unanchored patterns -----

  /** `s.match(re)` for an unanchored `re`: the match `at` reports at the
      leftmost starting position where it reports one. */
  function FirstMatch(s: string, at: string -> Option<string>): Option<string> {
    FirstMatchFrom(s, at, 0)
  }

  /** The leftmost match starting at or after position `from`. */
  function FirstMatchFrom(s: string, at: string -> Option<string>, from: nat): (r: Option<string>)
    requires from <= |s|
    ensures r.Some? ==> exists i :: from <= i <= |s| && at(s[i..]) == r && forall j :: from <= j < i ==> at(s[j..]).None?
    ensures r.None? ==> forall i :: from <= i <= |s| ==> at(s[i..]).None?
    decreases |s| - from
  {
    if at(s[from..]).Some? then at(s[from..])
    else if from == |s| then None
    else FirstMatchFrom(s, at, from + 1)
  }

  // ----- The origin prefix shared by extractUuid and domainMatch -----

  /** `https:\/\/(?:[a-zA-Z0-9.-]+)(?:\.[a-zA-Z0-9.-]+)+\/` at the start of
      `t`: the host and the text after its slash. */
  function OriginPrefix(t: string): (r: Option<(string, string)>)
    ensures r.Some? ==> DottedHost(r.value.0) && t == Scheme + r.value.0 + "/" + r.value.1
  {
    if !StartsWith(t, Scheme) then None
    else
      var rest := t[|Scheme|..];
      var k := FirstSlash(rest);
      if k < |rest| && DottedHost(rest[..k]) then
        assert rest == rest[..k] + "/" + rest[k + 1..];
        Some((rest[..k], rest[k + 1..]))
      else None
  }

  lemma OriginPrefixComplete(host: string, tail: string)
    requires DottedHost(host)
    ensures OriginPrefix(Scheme + host + "/" + tail) == Some((host, tail))
  {
    var t := Scheme + host + "/" + tail;
    assert StartsWith(t, Scheme);
    var rest := t[|Scheme|..];
    assert rest == host + "/" + tail;
    FirstSlashAfter(host, tail);
    assert rest[..|host|] == host;
    assert rest[|host| + 1..] == tail;
  }

  // ----- extractUuid -----

  /** The maximal run of `[a-zA-Z0-9-]` at the start of `s`. */
  function LeadingUuidRun(s: string): (r: string)
    ensures |r| <= |s| && r == s[..|r|]
    ensures forall i :: 0 <= i < |r| ==> IsUuidChar(r[i])
    ensures |r| < |s| ==> !IsUuidChar(s[|r|])
  {
    if s == [] || !IsUuidChar(s[0]) then []
    else [s[0]] + LeadingUuidRun(s[1..])
  }

  /** `(?:notes|conversation)\/` at the start of `after`: the segment and what follows it. */
  function Segment(after: string): (r: Option<(string, string)>)
    ensures r.Some? ==> (r.value.0 == "notes" || r.value.0 == "conversation") && after == r.value.0 + "/" + r.value.1
  {
    if StartsWith(after, "notes/") then
      assert after == after[..6] + after[6..];
      Some(("notes", after[6..]))
    else if StartsWith(after, "conversation/") then
      assert after == after[..13] + after[13..];
      Some(("conversation", after[13..]))
    else None
  }

  /** The id pattern of extractUuid matched at the start of `t`, giving its capture. */
  function UuidAt(t: string): (r: Option<string>)
    ensures r.Some? ==> UuidRun(r.value) && StartsWith(t, Scheme)
  {
    match OriginPrefix(t)
    case None => None
    case Some((_, after)) =>
      match Segment(after)
      case None => None
      case Some((_, tail)) =>
        var u := LeadingUuidRun(tail);
        if u != [] then Some(u) else None
  }

  /** `t` starts with `https://host/seg/u` where the id `u` is a maximal run. */
  predicate UuidShape(t: string, host: string, seg: string, u: string, rest: string) {
    && DottedHost(host)
    && (seg == "notes" || seg == "conversation")
    && UuidRun(u)
    && (rest == [] || !IsUuidChar(rest[0]))
    && t == Scheme + host + "/" + seg + "/" + u + rest
  }

  lemma UuidAtComplete(host: string, seg: string, u: string, rest: string)
    requires UuidShape(Scheme + host + "/" + seg + "/" + u + rest, host, seg, u, rest)
    ensures UuidAt(Scheme + host + "/" + seg + "/" + u + rest) == Some(u)
  {
    var after := seg + "/" + u + rest;
    ConcatShape(Scheme + host + "/" + seg + "/" + u + rest, host, after, seg, u + rest, u, rest);
    OriginPrefixComplete(host, after);
    SegmentOf(seg, u + rest);
    LeadingRunOf(u, rest);
  }

  lemma SegmentOf(seg: string, tail: string)
    requires seg == "notes" || seg == "conversation"
    ensures Segment(seg + "/" + tail) == Some((seg, tail))
  {
    var after := seg + "/" + tail;
    if seg == "notes" {
      assert after[..6] == "notes/";
      assert after[6..] == tail;
    } else {
      assert after[0] == 'c';
      assert after[..13] == "conversation/";
      assert after[13..] == tail;
    }
  }

  lemma {:induction false} LeadingRunOf(u: string, rest: string)
    requires forall i :: 0 <= i < |u| ==> IsUuidChar(u[i])
    requires rest == [] || !IsUuidChar(rest[0])
    ensures LeadingUuidRun(u + rest) == u
  {
    if u != [] {
      assert (u + rest)[1..] == u[1..] + rest;
      LeadingRunOf(u[1..], rest);
    } else {
      assert u + rest == rest;
    }
  }

  lemma UuidAtSound(t: string)
    requires UuidAt(t).Some?
    ensures exists host, seg, rest :: UuidShape(t, host, seg, UuidAt(t).value, rest)
  {
    var p := OriginPrefix(t).value;
    var host, after := p.0, p.1;
    var q := Segment(after).value;
    var seg, tail := q.0, q.1;
    var u := LeadingUuidRun(tail);
    assert u == UuidAt(t).value;
    var rest := tail[|u|..];
    assert tail == u + rest;
    ConcatShape(t, host, after, seg, tail, u, rest);
    assert UuidShape(t, host, seg, u, rest);
  }

  lemma ConcatShape(t: string, host: string, after: string, seg: string, tail: string, u: string, rest: string)
    requires t == Scheme + host + "/" + after && after == seg + "/" + tail && tail == u + rest
    ensures t == Scheme + host + "/" + seg + "/" + u + rest
  {
  }

  /** `extractUuid(id)`: the capture at the leftmost match, or `null`. */
  function ExtractUuid(id: string): (r: Option<string>)
    ensures r.Some? ==> UuidRun(r.value)
  {
    FirstMatch(id, UuidAt)
  }

  /** The result is the capture at the leftmost position where the id pattern
      matches, and `null` exactly when it matches nowhere. */
  lemma ExtractUuidLeftmost(id: string)
    ensures ExtractUuid(id).None? <==> forall i :: 0 <= i <= |id| ==> UuidAt(id[i..]).None?
    ensures ExtractUuid(id).Some? ==>
      exists i :: 0 <= i <= |id| && UuidAt(id[i..]) == ExtractUuid(id) && forall j :: 0 <= j < i ==> UuidAt(id[j..]).None?
  {
  }

  /** A URL of this server's note scheme gives its trailing id. */
  lemma ExtractUuidOfNoteUrl(host: string, seg: string, u: string, rest: string)
    requires UuidShape(Scheme + host + "/" + seg + "/" + u + rest, host, seg, u, rest)
    ensures ExtractUuid(Scheme + host + "/" + seg + "/" + u + rest) == Some(u)
  {
    UuidAtComplete(host, seg, u, rest);
  }

  lemma ExtractUuidExample()
    ensures ExtractUuid("https://a.io/notes/0a-1") == Some("0a-1")
  {
    var host, u := "a.io", "0a-1";
    assert host[1] == '.';
    assert DottedHost(host);
    assert UuidRun(u);
    assert Scheme + host + "/" + "notes" + "/" + u + "" == "https://a.io/notes/0a-1";
    ExtractUuidOfNoteUrl(host, "notes", u, "");
  }

  // ----- domainMatch -----

  /** Group 1 of `(https:\/\/(?:[a-zA-Z0-9.-]+)(?:\.[a-zA-Z0-9.-]+)+)\/.*` at the start of `t`. */
  function OriginAt(t: string): (r: Option<string>)
    ensures r.Some? ==> StartsWith(r.value, Scheme) && DottedHost(r.value[|Scheme|..])
  {
    match OriginPrefix(t)
    case None => None
    case Some((host, _)) => Some(Scheme + host)
  }

  function DomainOf(site: string): (r: Option<string>)
    ensures r.Some? ==> StartsWith(r.value, Scheme) && DottedHost(r.value[|Scheme|..])
  {
    FirstMatch(site, OriginAt)
  }

  /** `domainMatch(site1, site2)`: both sites carry an origin and the two are equal. */
  function DomainMatch(site1: string, site2: string): (r: bool)
    ensures r ==> DomainOf(site1).Some? && DomainOf(site2).Some?
  {
    var m1, m2 := DomainOf(site1), DomainOf(site2);
    m1.Some? && m2.Some? && m1.value == m2.value
  }

  /** The test is symmetric, and holds of a site and itself exactly when the
      site carries an origin. */
  lemma DomainMatchSymmetric(site1: string, site2: string)
    ensures DomainMatch(site1, site2) == DomainMatch(site2, site1)
    ensures DomainMatch(site1, site1) <==> DomainOf(site1).Some?
  {
  }

  lemma DomainMatchTransitive(site1: string, site2: string, site3: string)
    requires DomainMatch(site1, site2) && DomainMatch(site2, site3)
    ensures DomainMatch(site1, site3)
  {
  }

  /** A URL `https://host/path` with a dotted host has origin `https://host`. */
  lemma DomainOfStandardUrl(host: string, path: string)
    requires DottedHost(host)
    ensures DomainOf(Scheme + host + "/" + path) == Some(Scheme + host)
  {
    var site := Scheme + host + "/" + path;
    OriginPrefixComplete(host, path);
    assert site[0..] == site;
  }

  /** Two URLs `https://host/path` match exactly when their hosts are equal,
      whatever their paths. */
  lemma DomainMatchStandardUrls(host1: string, path1: string, host2: string, path2: string)
    requires DottedHost(host1) && DottedHost(host2)
    ensures DomainMatch(Scheme + host1 + "/" + path1, Scheme + host2 + "/" + path2) <==> host1 == host2
  {
    DomainOfStandardUrl(host1, path1);
    DomainOfStandardUrl(host2, path2);
    if Scheme + host1 == Scheme + host2 {
      assert host1 == (Scheme + host1)[|Scheme|..];
      assert host2 == (Scheme + host2)[|Scheme|..];
    }
  }

  // ----- extractMaxMin -----

  /** A parsed query string: its decoded key/value pairs in order. */
  type Query = seq<(string, string)>

  /** `searchParams.get(key)`: the value of the first pair with that key, or `null`. */
  function SearchParam(q: Query, key: string): (r: Option<string>)
    ensures r.Some? ==> exists i :: 0 <= i < |q| && q[i] == (key, r.value) && forall j :: 0 <= j < i ==> q[j].0 != key
    ensures r.None? ==> forall i :: 0 <= i < |q| ==> q[i].0 != key
  {
    if q == [] then None
    else if q[0].0 == key then Some(q[0].1)
    else
      var r := SearchParam(q[1..], key);
      assert forall i :: 1 <= i < |q| ==> q[i] == q[1..][i - 1];
      r
  }

  /** The `{value, type}` result: `max`, `min`, or both `null`. */
  datatype Cursor = MaxCursor(value: string) | MinCursor(value: string) | NoCursor

  /** `new URL(url)` throws. */
  datatype UrlError = InvalidUrl

  /** `extractMaxMin(url)`, with the URL parser given as `parseUrl`. */
  function ExtractMaxMin(parseUrl: string -> Option<Query>, url: string): (r: Result<Cursor, UrlError>)
    ensures r.Failure? <==> parseUrl(url).None?
    ensures r.Success? && !r.value.NoCursor? ==> r.value.value != ""
    ensures r.Success? && r.value.MaxCursor? ==> SearchParam(parseUrl(url).value, "max") == Some(r.value.value)
    ensures r.Success? && r.value.MinCursor? ==> SearchParam(parseUrl(url).value, "min") == Some(r.value.value)
  {
    match parseUrl(url)
    case None => Failure(InvalidUrl)
    case Some(q) =>
      var maxValue := SearchParam(q, "max");
      var minValue := SearchParam(q, "min");
      if Truthy(maxValue) then Success(MaxCursor(maxValue.value))
      else if Truthy(minValue) then Success(MinCursor(minValue.value))
      else Success(NoCursor)
  }

  /** A non-empty first `max` value wins, whatever `min` holds. */
  lemma MaxCursorWins(parseUrl: string -> Option<Query>, url: string, i: nat, v: string)
    requires parseUrl(url).Some? && var q := parseUrl(url).value;
      i < |q| && q[i] == ("max", v) && (forall j :: 0 <= j < i ==> q[j].0 != "max")
    requires v != ""
    ensures ExtractMaxMin(parseUrl, url) == Success(MaxCursor(v))
  {
    FirstPairDetermines(parseUrl(url).value, "max", i, v);
  }

  /** Without a non-empty `max`, a non-empty first `min` value is taken. */
  lemma MinCursorOtherwise(parseUrl: string -> Option<Query>, url: string, i: nat, v: string)
    requires parseUrl(url).Some? && var q := parseUrl(url).value;
      i < |q| && q[i] == ("min", v) && (forall j :: 0 <= j < i ==> q[j].0 != "min")
    requires v != ""
    requires !Truthy(SearchParam(parseUrl(url).value, "max"))
    ensures ExtractMaxMin(parseUrl, url) == Success(MinCursor(v))
  {
    FirstPairDetermines(parseUrl(url).value, "min", i, v);
  }

  /** With neither value non-empty the result is `{null, null}`. */
  lemma NoCursorOtherwise(parseUrl: string -> Option<Query>, url: string)
    requires parseUrl(url).Some?
    requires !Truthy(SearchParam(parseUrl(url).value, "max"))
    requires !Truthy(SearchParam(parseUrl(url).value, "min"))
    ensures ExtractMaxMin(parseUrl, url) == Success(NoCursor)
  {
  }

  /** The first pair with a key decides what `searchParams.get` returns. */
  lemma FirstPairDetermines(q: Query, key: string, i: nat, v: string)
    requires i < |q| && q[i] == (key, v) && forall j :: 0 <= j < i ==> q[j].0 != key
    ensures SearchParam(q, key) == Some(v)
  {
    var r := SearchParam(q, key);
    assert r.Some?;
    var k :| 0 <= k < |q| && q[k] == (key, r.value) && forall j :: 0 <= j < k ==> q[j].0 != key;
    assert k == i;
  }
}

=== FILE: js.dfy ===
/**
 * The small part of JavaScript's value semantics that the display helpers
 * rely on: truthiness of optional strings, `String(x)` of absent values,
 * `String.prototype.replaceAll` with a string pattern, and the decimal
 * rendering of integral numbers.
 */
module Js {
  import opened Wrappers

  /** JavaScript's two absent values, kept apart because `String()` and
      template literals render them differently. */
  datatype Nullable<+T> = Undefined | Null | Present(value: T)

  /** An optional string is truthy when it is present and not empty. */
  predicate Truthy(s: Option<string>) {
    s.Some? && s.value != ""
  }

  /** `String(x)` of an optional string field, absent meaning `undefined`. */
  function OptionalString(s: Option<string>): string {
    match s
    case None => "undefined"
    case Some(v) => v
  }

  /** `String(x)` (or `${x}`) of a string that may be `null` or `undefined`. */
  function NullableString(s: Nullable<string>): string {
    match s
    case Undefined => "undefined"
    case Null => "null"
    case Present(v) => v
  }

  /** `${x}` of an integral number that may be `null` or `undefined`. */
  function NullableNumber(n: Nullable<int>): string {
    match n
    case Undefined => "undefined"
    case Null => "null"
    case Present(v) => IntToString(v)
  }

  predicate StartsWith(s: string, prefix: string) {
    |prefix| <= |s| && s[..|prefix|] == prefix
  }

  /** `pat` occurs in `s` starting at index `i`. */
  predicate OccursAt(s: string, pat: string, i: nat) {
    i + |pat| <= |s| && s[i..i + |pat|] == pat
  }

  /** `s.includes(pat)`; the empty pattern occurs in every string. */
  predicate Occurs(s: string, pat: string) {
    exists i: nat | i <= |s| :: OccursAt(s, pat, i)
  }

  // ----- String.prototype.replaceAll(pattern, replacement) with a string pattern -----

  /** `s.replaceAll(pat, rep)`: every occurrence of `pat`, found left to right
      without overlap, is replaced by `rep`; an empty `pat` matches before
      every character and at the end. Characters here are Unicode scalar
      values, where JavaScript indexes UTF-16 code units. */
  function ReplaceAll(s: string, pat: string, rep: string): (r: string)
    ensures OccursAt(s, pat, 0) ==> StartsWith(r, rep)
    ensures pat != [] && |s| < |pat| ==> r == s
  {
    if pat == [] then SpliceEverywhere(s, rep) else ReplaceNonEmpty(s, pat, rep)
  }

  function SpliceEverywhere(s: string, rep: string): (r: string)
    ensures StartsWith(r, rep)
  {
    if s == [] then rep else rep + [s[0]] + SpliceEverywhere(s[1..], rep)
  }

  function ReplaceNonEmpty(s: string, pat: string, rep: string): string
    requires pat != []
    decreases |s|
  {
    if |s| < |pat| then s
    else if s[..|pat|] == pat then rep + ReplaceNonEmpty(s[|pat|..], pat, rep)
    else [s[0]] + ReplaceNonEmpty(s[1..], pat, rep)
  }

  /** Every occurrence is replaced, not only the first: the text before the
      first occurrence is kept, the occurrence becomes `rep`, and the
      replacement goes on in the text after it. */
  lemma ReplaceAllAtFirstOccurrence(a: string, pat: string, b: string, rep: string)
    requires pat != []
    requires forall i :: 0 <= i < |a| ==> !OccursAt(a + pat + b, pat, i)
    ensures ReplaceAll(a + pat + b, pat, rep) == a + rep + ReplaceAll(b, pat, rep)
  {
    ReplaceFirstOccurrence(a, pat, b, rep);
  }

  lemma {:induction false} ReplaceFirstOccurrence(a: string, pat: string, b: string, rep: string)
    requires pat != []
    requires forall i :: 0 <= i < |a| ==> !OccursAt(a + pat + b, pat, i)
    ensures ReplaceNonEmpty(a + pat + b, pat, rep) == a + rep + ReplaceNonEmpty(b, pat, rep)
    decreases |a|
  {
    var s := a + pat + b;
    if a == [] {
      assert s[..|pat|] == pat;
      assert s[|pat|..] == b;
    } else {
      var t := a[1..] + pat + b;
      assert s[1..] == t;
      assert !OccursAt(s, pat, 0);
      ReplaceSkip(s, pat, rep);
      forall i | 0 <= i < |a[1..]| && OccursAt(t, pat, i) ensures false {
        assert s[1..][i..i + |pat|] == s[i + 1..i + 1 + |pat|];
        assert OccursAt(s, pat, i + 1);
      }
      ReplaceFirstOccurrence(a[1..], pat, b, rep);
      assert a == [a[0]] + a[1..];
    }
  }

  lemma ReplaceSkip(s: string, pat: string, rep: string)
    requires pat != [] && |pat| <= |s| && !OccursAt(s, pat, 0)
    ensures ReplaceNonEmpty(s, pat, rep) == [s[0]] + ReplaceNonEmpty(s[1..], pat, rep)
  {
  }

  /** A string without any occurrence of a non-empty `pat` comes back unchanged
      (the empty pattern occurs everywhere). */
  lemma {:induction false} ReplaceAllAbsent(s: string, pat: string, rep: string)
    requires pat != [] && !Occurs(s, pat)
    ensures ReplaceAll(s, pat, rep) == s
    decreases |s|
  {
    if |s| >= |pat| {
      assert !OccursAt(s, pat, 0);
      assert !Occurs(s[1..], pat) by {
        forall i: nat | i <= |s[1..]| && OccursAt(s[1..], pat, i) ensures false {
          assert s[1..][i..i + |pat|] == s[i + 1..i + 1 + |pat|];
          assert OccursAt(s, pat, i + 1);
        }
      }
      ReplaceAllAbsent(s[1..], pat, rep);
    }
  }

  /** Replacing a pattern by itself changes nothing, for every pattern. */
  lemma {:induction false} ReplaceAllBySelf(s: string, pat: string)
    ensures ReplaceAll(s, pat, pat) == s
  {
    if pat == [] {
      SpliceEmpty(s);
    } else {
      ReplaceNonEmptyBySelf(s, pat);
    }
  }

  lemma {:induction false} SpliceEmpty(s: string)
    ensures SpliceEverywhere(s, "") == s
  {
    if s != [] {
      SpliceEmpty(s[1..]);
      assert s == [s[0]] + s[1..];
    }
  }

  lemma {:induction false} ReplaceNonEmptyBySelf(s: string, pat: string)
    requires pat != []
    ensures ReplaceNonEmpty(s, pat, pat) == s
    decreases |s|
  {
    if |s| >= |pat| {
      if s[..|pat|] == pat {
        ReplaceNonEmptyBySelf(s[|pat|..], pat);
        assert s == s[..|pat|] + s[|pat|..];
      } else {
        ReplaceNonEmptyBySelf(s[1..], pat);
        assert s == [s[0]] + s[1..];
      }
    }
  }

  /** With an empty pattern the replacement lands at all `|s| + 1` positions,
      `|s|` counting characters (JavaScript counts UTF-16 code units). */
  lemma {:induction false} ReplaceAllEmptyPatternLength(s: string, rep: string)
    ensures |ReplaceAll(s, "", rep)| == |s| + (|s| + 1) * |rep|
  {
    if s != [] {
      ReplaceAllEmptyPatternLength(s[1..], rep);
    }
  }

  /** A string that is exactly the pattern becomes exactly the replacement. */
  lemma ReplaceAllWhole(pat: string, rep: string)
    requires pat != []
    ensures ReplaceAll(pat, pat, rep) == rep
  {
    assert pat[..|pat|] == pat;
    assert ReplaceNonEmpty(pat[|pat|..], pat, rep) == [];
  }

  // ----- Decimal rendering of integral numbers (`String(n)`, `n + 'yr'`) -----

  predicate IsDigit(c: char) {
    '0' <= c <= '9'
  }

  function DigitChar(d: nat): (c: char)
    requires d < 10
    ensures IsDigit(c)
  {
    ('0' as int + d) as char
  }

  function DigitValue(c: char): nat
    requires IsDigit(c)
  {
    c as int - '0' as int
  }

  /** Decimal digits of `n`, most significant first, without leading zeros. */
  function NatToString(n: nat): (r: string)
    ensures |r| > 0 && forall i :: 0 <= i < |r| ==> IsDigit(r[i])
    ensures r[0] == '0' ==> n == 0
    decreases n
  {
    if n < 10 then [DigitChar(n)] else NatToString(n / 10) + [DigitChar(n % 10)]
  }

  /** An optional minus sign followed by decimal digits. */
  predicate IsIntString(s: string) {
    |s| > 0 && (s[0] == '-' || IsDigit(s[0])) && forall i :: 1 <= i < |s| ==> IsDigit(s[i])
  }

  /** `String(n)` for an integral number: a minus sign before negatives. */
  function IntToString(n: int): (r: string)
    ensures IsIntString(r)
    ensures r[0] == '-' <==> n < 0
  {
    if n < 0 then "-" + NatToString(-n) else NatToString(n)
  }

  function ParseNat(s: string): nat
    requires forall i :: 0 <= i < |s| ==> IsDigit(s[i])
  {
    if s == [] then 0 else ParseNat(s[..|s| - 1]) * 10 + DigitValue(s[|s| - 1])
  }

  function ParseInt(s: string): int
    requires IsIntString(s)
  {
    if s[0] == '-' then 0 - ParseNat(s[1..]) else ParseNat(s)
  }

  lemma {:induction false} NatToStringRoundTrip(n: nat)
    ensures ParseNat(NatToString(n)) == n
    decreases n
  {
    if n >= 10 {
      NatToStringRoundTrip(n / 10);
      var r := NatToString(n);
      assert r[..|r| - 1] == NatToString(n / 10);
    }
  }

  /** The rendering is read back as the same number: no two integers share a string. */
  lemma IntToStringRoundTrip(n: int)
    ensures ParseInt(IntToString(n)) == n
  {
    if n < 0 {
      var d := NatToString(-n);
      NatToStringRoundTrip(-n);
      assert IntToString(n)[1..] == d;
    } else {
      NatToStringRoundTrip(n);
    }
  }
}

=== FILE: time_since.dfy ===
/**
 * `timeSince(date)` of src/common.ts: the age of a timestamp as a short
 * label such as "3d" or "42s". The clock (`Date.now()`) is a parameter.
 * Times are integral milliseconds; an absent time stands for NaN.
 */
module TimeAgo {
  import opened Wrappers
  import opened Js

  /** A label before rendering: a count and a unit suffix. */
  datatype Age = Age(count: int, suffix: string)

  /** The units tried, largest first, with their sizes in seconds. */
  const Units: seq<(int, string)> :=
    [(31536000, "yr"), (2592000, "mo"), (86400, "d"), (3600, "h"), (60, "m")]

  /** `Math.floor((now - date) / 1000)`: whole seconds, rounded down also
      when `date` lies in the future. */
  function ElapsedSeconds(now: int, date: int): (s: int)
    ensures 1000 * s <= now - date < 1000 * (s + 1)
  {
    (now - date) / 1000
  }

  /** The chain of tests of the source. `seconds / size > 1` on numbers
      holds exactly when `seconds > size`, and `Math.floor(seconds / size)`
      is then the integer quotient. */
  function AgeOf(seconds: int): (a: Age)
    ensures a.suffix == "s" <==> seconds <= 60
    ensures a.suffix == "s" ==> a.count == seconds
    ensures a.suffix != "s" ==> 1 <= a.count <= seconds / 60
  {
    if seconds > 31536000 then Age(seconds / 31536000, "yr")
    else if seconds > 2592000 then Age(seconds / 2592000, "mo")
    else if seconds > 86400 then Age(seconds / 86400, "d")
    else if seconds > 3600 then Age(seconds / 3600, "h")
    else if seconds > 60 then Age(seconds / 60, "m")
    else Age(seconds, "s")
  }

  /** `timeSince(date)` at clock reading `now`. A NaN date (`None`) fails
      every `interval > 1` test and prints as `Math.floor(NaN) + 's'`. */
  function TimeSince(now: int, date: Option<int>): (r: string)
    ensures date.None? ==> r == "NaNs"
    ensures date.Some? ==> var a := FirstUnit(ElapsedSeconds(now, date.value), Units);
      r == IntToString(a.count) + a.suffix
  {
    match date
    case None => "NaNs"
    case Some(d) =>
      var age := AgeOf(ElapsedSeconds(now, d));
      AgeOfIsFirstUnit(ElapsedSeconds(now, d));
      IntToString(age.count) + age.suffix
  }

  /** Reference reading: the first unit of the list whose size the
      seconds strictly exceed, else plain seconds. */
  function FirstUnit(seconds: int, units: seq<(int, string)>): Age
    requires forall k :: 0 <= k < |units| ==> units[k].0 > 0
  {
    if units == [] then Age(seconds, "s")
    else if seconds > units[0].0 then Age(seconds / units[0].0, units[0].1)
    else FirstUnit(seconds, units[1..])
  }

  lemma AgeOfIsFirstUnit(seconds: int)
    ensures AgeOf(seconds) == FirstUnit(seconds, Units)
  {
    var u0 := Units;
    var u1 := [(2592000, "mo"), (86400, "d"), (3600, "h"), (60, "m")];
    var u2 := [(86400, "d"), (3600, "h"), (60, "m")];
    var u3 := [(3600, "h"), (60, "m")];
    var u4 := [(60, "m")];
    assert u0[1..] == u1 && u1[1..] == u2 && u2[1..] == u3 && u3[1..] == u4 && u4[1..] == [];
    if seconds <= 31536000 {
      assert FirstUnit(seconds, u0) == FirstUnit(seconds, u1);
      if seconds <= 2592000 {
        assert FirstUnit(seconds, u1) == FirstUnit(seconds, u2);
        if seconds <= 86400 {
          assert FirstUnit(seconds, u2) == FirstUnit(seconds, u3);
          if seconds <= 3600 {
            assert FirstUnit(seconds, u3) == FirstUnit(seconds, u4);
            if seconds <= 60 {
              assert FirstUnit(seconds, u4) == FirstUnit(seconds, []);
            }
          }
        }
      }
    }
  }

  /** Unit `k` is the first of the list whose size the seconds exceed. */
  predicate FirstExceeded(seconds: int, units: seq<(int, string)>, k: int) {
    && 0 <= k < |units|
    && seconds > units[k].0
    && forall j :: 0 <= j < k ==> seconds <= units[j].0
  }

  /** The label counts whole units of the given size, at least one. */
  predicate CountsUnit(seconds: int, unit: (int, string), a: Age) {
    && unit.0 > 0
    && a.suffix == unit.1
    && a.count == seconds / unit.0
    && a.count >= 1
    && unit.0 * a.count <= seconds < unit.0 * (a.count + 1)
  }

  /** What the first-unit reading promises: the unit chosen is the first the
      seconds exceed, the count is the whole number of such units (at least
      one), and plain seconds are shown only when no unit is exceeded. */
  lemma {:induction false} FirstUnitChoice(seconds: int, units: seq<(int, string)>)
    requires forall k :: 0 <= k < |units| ==> units[k].0 > 0
    ensures var a := FirstUnit(seconds, units);
      || (a == Age(seconds, "s") && forall k :: 0 <= k < |units| ==> seconds <= units[k].0)
      || exists k :: FirstExceeded(seconds, units, k) && CountsUnit(seconds, units[k], a)
  {
    if units != [] {
      if seconds > units[0].0 {
        CountsExceededUnit(seconds, units[0]);
        assert FirstExceeded(seconds, units, 0);
      } else {
        var tail := units[1..];
        FirstUnitChoice(seconds, tail);
        var a := FirstUnit(seconds, tail);
        if a == Age(seconds, "s") && forall k :: 0 <= k < |tail| ==> seconds <= tail[k].0 {
          assert forall k :: 1 <= k < |units| ==> units[k] == tail[k - 1];
        } else {
          var k :| FirstExceeded(seconds, tail, k) && CountsUnit(seconds, tail[k], a);
          assert forall j :: 1 <= j < k + 1 ==> units[j] == tail[j - 1];
          assert units[k + 1] == tail[k];
          assert FirstExceeded(seconds, units, k + 1);
        }
      }
    }
  }

  /** The same promise for the chain of the source, over its five units. */
  lemma AgeOfChoosesFirstExceededUnit(seconds: int)
    ensures var a := AgeOf(seconds);
      || (a == Age(seconds, "s") && forall k :: 0 <= k < |Units| ==> seconds <= Units[k].0)
      || exists k :: FirstExceeded(seconds, Units, k) && CountsUnit(seconds, Units[k], a)
  {
    AgeOfIsFirstUnit(seconds);
    FirstUnitChoice(seconds, Units);
  }

  /** An exceeded unit is counted in whole units, at least one. */
  lemma CountsExceededUnit(seconds: int, unit: (int, string))
    requires 0 < unit.0 < seconds
    ensures CountsUnit(seconds, unit, Age(seconds / unit.0, unit.1))
  {
    var q := seconds / unit.0;
    assert unit.0 * q <= seconds < unit.0 * (q + 1);
    QuotientAtLeastOne(seconds, unit.0);
  }

  lemma QuotientAtLeastOne(s: int, d: int)
    requires 0 < d < s
    ensures s / d >= 1
  {
  }

  /** The label's digits read back as the count and it ends in the unit suffix. */
  lemma TimeSinceReadsBack(now: int, date: int)
    ensures var age := AgeOf(ElapsedSeconds(now, date));
      var r := TimeSince(now, Some(date));
      var n := |r| - |age.suffix|;
      0 < n && r[n..] == age.suffix && ParseInt(r[..n]) == age.count
  {
    var age := AgeOf(ElapsedSeconds(now, date));
    IntToStringRoundTrip(age.count);
    var digits := IntToString(age.count);
    assert (digits + age.suffix)[..|digits|] == digits;
  }

  /** Sizes are compared strictly: exactly one minute is "60s", exactly one
      year is "12mo". */
  lemma StrictBoundaries()
    ensures AgeOf(60) == Age(60, "s") && AgeOf(61) == Age(1, "m")
    ensures AgeOf(31536000) == Age(12, "mo") && AgeOf(31536001) == Age(1, "yr")
  {
  }
}

=== FILE: wrappers.dfy ===
/** Absent-or-present values and success-or-error results. */
module Wrappers {

  datatype Option<+T> = None | Some(value: T)

  datatype Result<+T, +E> = Success(value: T) | Failure(error: E)
}
